=== FILE: README.md ===
# The AI Depot page script, modelled in Dafny

This project models the logic of the marketing site's browser script
`public/scripts.js`. The model covers five pieces:

- **ROI calculator** (`calculateROI`), in module `Roi`. Four numeric inputs are read with JavaScript's `parseFloat(v) || default` rule. A fixed formula then derives the monthly spend, the converted and unconverted leads, the cost per acquisition, the wasted spend, the missed revenue and the AI "potential" revenue.
- **Chart partition** (`updateConversionChart`), in module `Chart`. It computes the three bar percentages: converted, AI-converted, and the remainder.
- **Currency formatter** (`formatCurrency`), in module `Currency`. It produces `$` plus `toFixed(2)`, with the regular expression `\d(?=(\d{3})+\.)` inserting thousands separators.
- **Form validator** (`validateForm`) and its caller `handleFormSubmit`, in module `Validation`.
- **Navigation state**, in module `Navigation`. It covers the hamburger toggle, the sticky header threshold and the in-page anchor handler.

Module `Page` connects the calculator and the formatter. It gives the strings the calculator shows when its four fields are blank or hold 50, 100, 10 and 3500.

Numbers are exact rationals (`real`), not IEEE-754 doubles.
- `Math.round(x)` is `floor(x + 1/2)`, so ties go towards positive infinity.
- `toFixed(2)` is modelled as ECMAScript defines it: the sign is split off, then the magnitude is rounded to the nearest cent, with a tie going to the larger magnitude.
- The regular-expression replacement is modelled literally: `InsertSeparators` runs the lookahead `GroupsThenDot` at every digit. It is then proved equal to the ordinary right-to-left thousands grouping `Group`.

Two consequences of the code that are easy to miss:
- `parseFloat("0") || 100` is 100, so a field holding 0 behaves exactly like a blank one; a lead count of 0 is read as 100 leads (`Roi.ZeroInputsGiveDefaultOutputs`).
- When no lead converts, the acquisition cost is 0 and the whole monthly spend is counted as wasted (`Roi.OneLeadConvertsNone`).

## Model

| member | source | states |
|---|---|---|
| Roi.OrDefault | public/scripts.js:50-53 | a parsed number other than 0 is kept; NaN (`None`) and 0 both become the default; with a non-zero default the result is never 0 |
| Roi.ReadInputs | public/scripts.js:50-53 | each of the four fields is defaulted on its own (50, 100, 10, 3500), and none of the resulting inputs is 0 |
| Roi.Round | public/scripts.js:57 | `Math.round` returns an integer within one half of its argument (above `x - 1/2`, at most `x + 1/2`) |
| Roi.RoundUnique | public/scripts.js:57 | that nearest-integer property determines `Math.round` completely |
| Roi.RoundMonotone | public/scripts.js:57 | `Math.round` never decreases as its argument grows |
| Roi.Compute | public/scripts.js:56-66 | spend is cost times leads; converted plus not converted is exactly the lead count; converted is the rounded expected conversions; the acquisition cost times the conversions gives back the spend when conversions are positive and is 0 otherwise; wasted spend is 0 when something converts and the whole spend otherwise; missed and potential revenue are the counts times the order value; additional conversions are 22% of the rest, rounded |
| Roi.CalculateRoi | public/scripts.js:48-58 | the chart's denominator (converted plus not converted) equals the defaulted lead count and is never 0 |
| Roi.BlankInputsGiveDefaultOutputs | public/scripts.js:50-66 | blank fields give spend 5000, 10 converted, 90 not converted, 500 per acquisition, 0 wasted, 315000 missed, round(19.8) = 20 additional and 70000 potential |
| Roi.ZeroInputsGiveDefaultOutputs | public/scripts.js:50-53 | fields holding 0 give exactly the blank-field figures, so a lead count of 0 is read as 100 |
| Roi.OneLeadConvertsNone | public/scripts.js:57-60 | one lead at 10% converts none; the guard avoids dividing by zero, the acquisition cost is 0 and all of the spend is wasted |
| Roi.OutputsDependOnlyOnDefaultedInputs | public/scripts.js:50-66 | two entries whose defaulted values agree produce identical outputs |
| Chart.Percentages | public/scripts.js:87-94 | the result is drawable iff the total is non-zero; the three percentages sum to exactly 100; the first two are the converted and AI counts as shares of the total, times 100 |
| Chart.RoiChart | public/scripts.js:77-92 | on the calculator's own path the chart is always drawable, and the converted share is taken of the defaulted lead count |
| Chart.DefaultChart | public/scripts.js:50-94 | with blank inputs the bar is 10% / 20% / 70% |
| Chart.SegmentsInRange | public/scripts.js:57-94 | for a whole, positive lead count and a rate in (0, 100], every segment lies in [0, 100] |
| Chart.SharesInRange | public/scripts.js:91-94 | with non-negative counts and an AI count no larger than the unconverted leads, all three percentages lie in [0, 100] |
| Currency.Numeral | public/scripts.js:84 | the decimal digits of a whole number: non-empty, all digits, no leading zero |
| Currency.NumeralRoundTrip | public/scripts.js:84 | reading the digits back gives the number they were written from |
| Currency.ToFixed | public/scripts.js:84 | `toFixed(2)` keeps the sign of a negative input and rounds the magnitude to the nearest cent |
| Currency.IntegerDigits | public/scripts.js:84 | the whole-dollar part `toFixed(2)` writes for the rounded cents: at least one digit, nothing but digits |
| Currency.FractionDigits | public/scripts.js:84 | the part after the point that `toFixed(2)` writes: exactly two digits, zero-padded |
| Currency.FixedText | public/scripts.js:84 | the string `value.toFixed(2)` returns: it starts with `-` exactly for a negative value and ends in `.` and two digits |
| Currency.FixedDigitsDenoteCents | public/scripts.js:84 | the integer digits denote the whole dollars, the two fraction digits the remaining cents, and together they give back the rounded cents |
| Currency.GroupsThenDot | public/scripts.js:84 | the lookahead `(\d{3})+\.`: whenever it succeeds, the text starts with a digit and contains a full stop |
| Currency.InsertSeparators | public/scripts.js:84 | the global replacement by `$&,` never makes the text shorter (each matched digit is kept and may gain a comma) |
| Currency.InsertSeparatorsOnlyAddsCommas | public/scripts.js:84 | the replacement only inserts commas: deleting the commas gives the same text as deleting them from the input |
| Currency.Render | public/scripts.js:84 | `'$'` followed by the replaced `toFixed` text is `$`, the sign, the grouped integer digits, `.` and the fraction digits, and without its commas it is `$` followed by `toFixed`'s text |
| Currency.FormatCurrency | public/scripts.js:83-85 | the output is `$`, the sign, the thousands-grouped integer digits, `.` and the two fraction digits; deleting every comma gives `$` followed by `toFixed(2)`'s text |
| Currency.SeparatorsAreGrouping | public/scripts.js:84 | the global regular-expression replacement on `toFixed`'s text groups the integer digits by thousands from the right and leaves the sign and the fraction alone |
| Currency.SeparatorsBeforeDot | public/scripts.js:84 | on digits followed by the fraction, the replacement puts a comma after exactly those digits that are followed by a positive multiple of three digits |
| Currency.LookaheadCountsDigits | public/scripts.js:84 | the lookahead `(\d{3})+\.` succeeds in front of a digit run iff the run's length is a positive multiple of 3 |
| Currency.NoDotUnchanged | public/scripts.js:84 | text without a full stop (the fraction digits) receives no comma |
| Currency.GroupStrips | public/scripts.js:84 | deleting the commas of a grouped numeral gives its digits back |
| Currency.GroupWellGrouped | public/scripts.js:84 | the grouping is a leading group of one to three digits, then groups of a comma and exactly three digits |
| Currency.WellGroupedUnique | public/scripts.js:84 | two well-grouped texts with the same digits are the same text |
| Currency.FormatCurrencyIsTheGrouping | public/scripts.js:83-85 | any text of `$`, sign, a well-grouped integer part with `toFixed`'s digits, `.` and the fraction digits is exactly the formatter's output |
| Currency.FormatCurrencyShape | public/scripts.js:83-85 | the output starts with `$`, has a well-grouped integer part carrying `toFixed`'s digits, and ends in `.` and exactly two comma-free digits that denote the cents |
| Currency.NoSeparatorBelowThousand | public/scripts.js:84 | an amount that rounds below 1000 dollars receives no comma |
| Currency.SmallAmountsUnseparated | public/scripts.js:84 | every amount of magnitude below 999.995 is written without a comma |
| Currency.FiveThousand | public/scripts.js:83-85 | 5000 is written "$5,000.00" |
| Currency.Zero | public/scripts.js:83-85 | 0 is written "$0.00" |
| Currency.NegativeAmount | public/scripts.js:83-85 | -1234.5 is written "$-1,234.50": the minus sign follows the dollar sign and is skipped by the separator rule |
| Currency.NegativeRoundsToZero | public/scripts.js:83-85 | -0.001 is written "$-0.00": the sign survives rounding to zero cents |
| Page.DefaultDisplay | public/scripts.js:48-85 | with the four fields blank, or holding 50, 100, 10 and 3500, the calculator shows "$5,000.00", "$500.00", "$0.00", "$315,000.00" and "$70,000.00" |
| Validation.Filled | public/scripts.js:221 | the truthiness test `formValues[field]`: the field is present and not the empty string, so a value of only spaces counts as filled |
| Validation.MissingFields | public/scripts.js:220-225 | the marked fields never outnumber the fields checked |
| Validation.MissingFieldsMembers | public/scripts.js:220-225 | a field is marked iff it is in the checked list and is absent or the empty string |
| Validation.MissingFieldsAppend | public/scripts.js:220-225 | checking two lists in turn marks what each marks, in that order |
| Validation.MissingFieldsIgnoresOtherKeys | public/scripts.js:220-225 | keys outside the checked list cannot change what is marked |
| Validation.MarkMissing | public/scripts.js:216-225 | the loop marks exactly the unfilled fields, in list order and without stopping early, and the flag stays true iff every field is filled |
| Validation.Validate | public/scripts.js:215-235 | valid iff all six required fields are filled and at least one connect method is checked; the marked fields are exactly the unfilled required ones; the alert is shown iff no method is checked |
| Validation.ValidateForm | public/scripts.js:215-235 | the loop-and-flag procedure returns the same verdict as the declarative decision, with the marks in list order |
| Validation.EmptyEmailMarksOnlyEmail | public/scripts.js:215-235 | an empty e-mail in an otherwise complete form with one box checked fails, marks only `email` and shows no alert |
| Validation.NoConnectMethodOnlyAlerts | public/scripts.js:227-232 | a complete form with no box checked fails through the alert and marks no field |
| Validation.OnlyRequiredFieldsMatter | public/scripts.js:217-225 | forms that agree on the required fields get the same verdict |
| Validation.HandleSubmit | public/scripts.js:173-195 | the form is replaced by the acknowledgement iff every required field is filled and a method is checked |
| Navigation.ToggleMenu | public/scripts.js:27-32 | a hamburger click flips both `active` flags, leaves the header alone and keeps the two flags in step |
| Navigation.OnScroll | public/scripts.js:34-41 | the header is `scrolled` iff the offset is strictly above 100, and the menu is untouched |
| Navigation.InPageLink | public/scripts.js:263 | the selector `a[href^="#"]`: only links whose `href` begins with `#` get the smooth-scroll handler |
| Navigation.OnAnchorClick | public/scripts.js:263-281 | a link that is not in-page is not handled by the script (the browser follows it) and leaves the modelled state alone; a bare `#` or an unknown target changes nothing and scrolls nowhere; otherwise the page scrolls to the target, an open menu is closed, and a closed one stays as it was |
| Navigation.Step | public/scripts.js:27-281 | each event goes to its handler; only a scroll event changes the header, and a scroll event never changes the menu |
| Navigation.Run | public/scripts.js:27-281 | events are handled one after another; a sequence with no scroll event leaves the header as it was |
| Navigation.StepKeepsMenuInSync | public/scripts.js:27-281 | every event keeps the list and the control showing the same state |
| Navigation.RunKeepsMenuInSync | public/scripts.js:27-281 | from a state where they agree, the list and the control agree after any sequence of events |
| Navigation.MenuInSyncFromLoad | public/scripts.js:27-281 | from the loaded page (menu closed, header not scrolled, assuming the page's HTML sets neither class), menu and control agree after any sequence of events |
| Navigation.RunSnoc | public/scripts.js:27-41 | running a sequence and then one more event equals one more step after the run |
| Navigation.RunAppend | public/scripts.js:27-281 | handling one sequence of events and then another is handling their concatenation |
| Navigation.LastScrollDecides | public/scripts.js:34-41 | after any history and any clicks that follow it, the header state is decided by the latest scroll offset alone |
| Navigation.DoubleToggleIsIdentity | public/scripts.js:27-32 | two hamburger clicks in a row restore the state exactly |
| Navigation.LinkClickClosesMenu | public/scripts.js:270-280 | a click on a link whose target exists leaves the menu closed |

## Left out

- Floating point: all arithmetic is exact. Products such as `leadsPerMonth * (conversionRate / 100)` and the `toFixed` rounding are not subject to IEEE-754 error here, so figures that sit on a rounding boundary can differ from a browser's.
- Roi.Compute: states `wastedSpend == 0` whenever some lead converts, because `monthlySpend - convertedLeads * (monthlySpend / convertedLeads)` is exactly zero in real arithmetic. In IEEE-754 doubles it is a rounding leftover that can be a tiny negative number: with 72 leads, $25 per lead and a 10% rate there are 7 conversions and a spend of 1800, `7 * (1800 / 7)` is 1800.0000000000002, the wasted spend is about -2.3e-13, and the browser shows "$-0.00" where the model shows "$0.00". Ordinary inputs hit this often.
- `parseFloat` prefix parsing: each field enters as an already-parsed `Option<real>`, with `None` standing for NaN. `Infinity` is not modelled.
- Currency.FormatCurrency: requires magnitude below 10^21, where `toFixed` switches to exponential notation (`(1.5e21).toFixed(2)` is "1.5e+21"). The only `.` in that text follows a single digit, so the lookahead never finds three digits before a `.` and no comma is inserted; the exponential text itself is not modelled.
- Chart.Percentages: a zero total yields `None`, whereas the browser would draw `NaN` or `Infinity` widths (`Infinity` when the converted count is not 0 but the total is). This cannot happen on the `calculateROI` path.
- Chart.SegmentsInRange: holds only for a whole, positive lead count and a rate in (0, 100]. Negative or fractional inputs, which the page accepts, can give segments outside [0, 100].
- The chart labels' `toFixed(1)`, the `innerHTML` templates, the `<style>` elements appended on every call, and the `textContent` writes: these are rendering only. `Page.DefaultDisplay` states the displayed strings instead.
- The `setTimeout` pulse animation (`animateResults`): it is timer-driven and leaves no state.
- `alert` and `scrollIntoView`: they appear only as the `alerted` flag of a verdict and the `scrolledTo` target of an anchor click.
- `highlightInvalidField`: it appears only as the list of marked field names. The `input` listener that clears the highlight, and its accumulation over repeated submits, are not modelled.
- `FormData` extraction: the form is the map it would produce. The connect-method check boxes enter only as a count of checked boxes.
- `document.querySelector` on the `href`: it is abstracted as membership in a set of selectors that find an element. A selector the browser rejects (and throws on) is not modelled.
- The `if (hamburger)` and `if (contactForm)` guards: they only decide whether listeners are attached, and the model assumes all page elements exist.
- The fields' initial contents: what the page shows when `calculateROI` runs on load depends on the `value` attributes in the page's HTML, which is not part of this model. `Page.DefaultDisplay` covers blank fields and fields holding the four default numbers. Likewise `Navigation.Initial` assumes the HTML starts with neither `active` class and without `scrolled`.

=== FILE: chart.dfy ===
/** The percentage arithmetic of `updateConversionChart`: three bar
    segments sized as shares of the original lead count. The HTML the
    browser builds from them is not modelled. */
module Chart {
  import opened Wrappers
  import Roi

  /** Widths of the three bar segments, in percent. */
  datatype Segments = Segments(
    convertedPercent: real,
    aiPercent: real,
    notConvertedPercent: real)

  /** The three percentages of `converted + notConverted`. The third is
      whatever remains of 100, so AI conversions (which are not part of the
      original total) are carved out of the unconverted share. When the total
      is zero the browser divides by zero and draws NaN or Infinity widths;
      that case is `None` here (it cannot arise from `calculateROI`). */
  function Percentages(converted: int, notConverted: real, aiConverted: int): (p: Option<Segments>)
    ensures p.Some? <==> converted as real + notConverted != 0.0
    ensures p.Some? ==> p.value.convertedPercent + p.value.aiPercent + p.value.notConvertedPercent == 100.0
    ensures p.Some? ==> p.value.convertedPercent * (converted as real + notConverted) == converted as real * 100.0
    ensures p.Some? ==> p.value.aiPercent * (converted as real + notConverted) == aiConverted as real * 100.0
  {
    var total := converted as real + notConverted;
    if total == 0.0 then None
    else
      var convertedPercent := converted as real / total * 100.0;
      var aiPercent := aiConverted as real / total * 100.0;
      Some(Segments(convertedPercent, aiPercent, 100.0 - convertedPercent - aiPercent))
  }

  /** The chart exactly as `calculateROI` requests it. */
  function RoiChart(raw: Roi.RawInputs): (p: Option<Segments>)
    ensures p.Some?
    ensures p.value.convertedPercent * Roi.ReadInputs(raw).leadsPerMonth
            == Roi.CalculateRoi(raw).convertedLeads as real * 100.0
  {
    var o := Roi.CalculateRoi(raw);
    Percentages(o.convertedLeads, o.notConvertedLeads, o.additionalConversions)
  }

  /** With the default inputs the bar reads 10% / 20% / 70%. */
  lemma DefaultChart()
    ensures RoiChart(Roi.AllBlank) == Some(Segments(10.0, 20.0, 70.0))
  {
    Roi.BlankInputsGiveDefaultOutputs();
  }

  /** A drawable chart whose three segments each lie within [0, 100]. */
  predicate InRange(p: Option<Segments>)
  {
    && p.Some?
    && 0.0 <= p.value.convertedPercent <= 100.0
    && 0.0 <= p.value.aiPercent <= 100.0
    && 0.0 <= p.value.notConvertedPercent <= 100.0
  }

  /** For a whole number of leads and a conversion rate in (0, 100], all
      three segments lie within [0, 100]: the rounded conversions never
      exceed the leads, and the AI's extra conversions never exceed the
      leads left over. */
  lemma SegmentsInRange(i: Roi.Inputs)
    requires i.leadsPerMonth == i.leadsPerMonth.Floor as real && i.leadsPerMonth > 0.0
    requires 0.0 < i.conversionRate <= 100.0
    ensures var o := Roi.Compute(i);
      InRange(Percentages(o.convertedLeads, o.notConvertedLeads, o.additionalConversions))
  {
    WholeLeadsInRange(i.leadsPerMonth, i.conversionRate);
    ChartArguments(i);
  }

  /** The chart `calculateROI` draws for `leads` leads of which `share`
      are expected to convert: the rounded conversions, the leads left over
      and the AI's rounded 22% of those. */
  function CountsChart(leads: real, share: real): Option<Segments>
  {
    var c := Roi.Round(share);
    var rest := leads - c as real;
    Percentages(c, rest, Roi.Round(rest * Roi.AiImprovement))
  }

  /** The counts `calculateROI` hands to the chart. */
  lemma ChartArguments(i: Roi.Inputs)
    ensures var o := Roi.Compute(i);
      Percentages(o.convertedLeads, o.notConvertedLeads, o.additionalConversions)
      == CountsChart(i.leadsPerMonth, i.leadsPerMonth * (i.conversionRate / 100.0))
  {
  }

  /** The chart of the counts derived from a whole number of leads and a
      rate in (0, 100]. */
  lemma WholeLeadsInRange(leads: real, rate: real)
    requires leads == leads.Floor as real && leads > 0.0
    requires 0.0 < rate <= 100.0
    ensures InRange(CountsChart(leads, leads * (rate / 100.0)))
  {
    MulBounds(leads, rate / 100.0);
    ChartOfCounts(leads, leads * (rate / 100.0));
  }

  /** When a whole number of leads bounds the expected conversions
      `share`, both rounded counts fit inside the leads and the chart stays
      within [0, 100]. */
  lemma ChartOfCounts(leads: real, share: real)
    requires leads == leads.Floor as real && leads > 0.0
    requires 0.0 <= share <= leads
    ensures InRange(CountsChart(leads, share))
  {
    var n := leads.Floor;
    Roi.RoundMonotone(0.0, share);
    Roi.RoundMonotone(share, n as real);
    Roi.RoundWhole(n);
    Roi.RoundWhole(0);
    var c := Roi.Round(share);
    var rest := n as real - c as real;
    assert rest == (n - c) as real;
    AiShareFits(n - c);
    SharesInRange(c, rest, Roi.Round(rest * Roi.AiImprovement));
  }

  /** Percentages of non-negative counts whose AI part fits in the rest all
      lie within [0, 100]. */
  lemma SharesInRange(converted: int, notConverted: real, ai: int)
    requires 0 <= converted && 0.0 <= notConverted && converted as real + notConverted > 0.0
    requires 0 <= ai && ai as real <= notConverted
    ensures InRange(Percentages(converted, notConverted, ai))
  {
    var total := converted as real + notConverted;
    var p := Percentages(converted, notConverted, ai).value;
    PercentBounds(converted as real, total, p.convertedPercent);
    PercentBounds(ai as real, total, p.aiPercent);
    assert (p.convertedPercent + p.aiPercent) * total == (converted + ai) as real * 100.0;
    PercentBounds((converted + ai) as real, total, p.convertedPercent + p.aiPercent);
  }

  lemma MulBounds(a: real, f: real)
    requires a > 0.0 && 0.0 < f <= 1.0
    ensures 0.0 < a * f <= a
  {
  }

  /** Rounding 22% of a whole number `k >= 0` stays within [0, k]. */
  lemma AiShareFits(k: int)
    requires k >= 0
    ensures 0 <= Roi.Round(k as real * Roi.AiImprovement) <= k
  {
  }

  /** A share `part / total * 100` lies in [0, 100] when the part does. */
  lemma PercentBounds(part: real, total: real, pct: real)
    requires 0.0 <= part <= total && total > 0.0
    requires pct * total == part * 100.0
    ensures 0.0 <= pct <= 100.0
  {
  }
}

=== FILE: currency.dfy ===
/** `formatCurrency`: `'$' + value.toFixed(2)` with a comma inserted by the
    global regular-expression replacement `\d(?=(\d{3})+\.)` -> `$&,`.

    The model keeps the two stages apart. `ToFixed` is `toFixed(2)` on an
    exact value: a sign and a whole number of cents. `InsertSeparators` is
    the replacement read literally: after every digit whose lookahead sees
    one or more groups of three digits and then a `.`, a comma. `Group` is
    the familiar right-to-left thousands grouping, and the lemmas show that
    the replacement computes exactly it. */
module Currency {

  predicate IsDigit(c: char) {
    '0' <= c <= '9'
  }

  predicate AllDigits(s: string) {
    forall k :: 0 <= k < |s| ==> IsDigit(s[k])
  }

  function DigitChar(d: nat): (c: char)
    requires d < 10
    ensures IsDigit(c)
  {
    ('0' as int + d) as char
  }

  function DigitValue(c: char): nat
    requires IsDigit(c)
  {
    c as int - '0' as int
  }

  /** The decimal numeral of `n`: no leading zeros, and "0" for zero. */
  function Numeral(n: nat): (s: string)
    ensures |s| >= 1 && AllDigits(s)
    ensures |s| > 1 ==> s[0] != '0'
  {
    if n < 10 then [DigitChar(n)] else Numeral(n / 10) + [DigitChar(n % 10)]
  }

  /** Writing one more digit after a number's numeral gives the numeral of
      ten times the number plus that digit. */
  lemma NumeralAppendDigit(n: nat, d: nat)
    requires n >= 1 && d < 10
    ensures Numeral(10 * n + d) == Numeral(n) + [DigitChar(d)]
  {
    var m := 10 * n + d;
    assert m / 10 == n && m % 10 == d;
  }

  /** The number a string of decimal digits denotes. */
  function ValueOf(s: string): nat
    requires AllDigits(s)
  {
    if s == [] then 0 else 10 * ValueOf(s[..|s| - 1]) + DigitValue(s[|s| - 1])
  }

  /** Reading a numeral back gives the number it was made from. */
  lemma {:induction false} NumeralRoundTrip(n: nat)
    ensures ValueOf(Numeral(n)) == n
  {
    if n >= 10 {
      NumeralRoundTrip(n / 10);
      var s := Numeral(n);
      assert s[..|s| - 1] == Numeral(n / 10);
    }
  }

  /** Numbers below 1000 have at most three digits. */
  lemma {:induction false} NumeralShort(n: nat)
    requires n < 1000
    ensures |Numeral(n)| <= 3
  {
    if n >= 10 {
      NumeralShort(n / 10);
      if n >= 100 {
        assert |Numeral(n / 10)| <= 2 by { NumeralShort2(n / 10); }
      }
    }
  }

  lemma NumeralShort2(n: nat)
    requires n < 100
    ensures |Numeral(n)| <= 2
  {
  }

  /** The magnitude below which `toFixed` writes fixed-point digits; at or
      above it JavaScript switches to exponential notation. */
  const ExponentialThreshold: real := 1000000000000000000000.0

  function Abs(x: real): real {
    if x < 0.0 then -x else x
  }

  /** The outcome of `toFixed(2)`: a sign and a whole number of cents. */
  datatype Fixed = Fixed(negative: bool, cents: nat)

  /** `toFixed(2)`: the sign is split off first, then the magnitude is
      rounded to the nearest cent, a tie going to the larger magnitude. So
      a small negative value such as -0.001 keeps its minus sign. */
  function ToFixed(x: real): (f: Fixed)
    ensures f.negative <==> x < 0.0
    ensures Abs(x) * 100.0 - 0.5 < f.cents as real <= Abs(x) * 100.0 + 0.5
  {
    Fixed(x < 0.0, (Abs(x) * 100.0 + 0.5).Floor)
  }

  function Sign(f: Fixed): string {
    if f.negative then "-" else ""
  }

  /** The digits before the decimal point. */
  function IntegerDigits(f: Fixed): (s: string)
    ensures |s| >= 1 && AllDigits(s)
  {
    Numeral(f.cents / 100)
  }

  /** The two digits after the decimal point. */
  function FractionDigits(f: Fixed): (s: string)
    ensures |s| == 2 && AllDigits(s)
  {
    [DigitChar(f.cents % 100 / 10), DigitChar(f.cents % 10)]
  }

  /** `toFixed`'s digits denote the rounded amount: the integer digits give
      the whole dollars and the two fraction digits the remaining cents. */
  lemma FixedDigitsDenoteCents(f: Fixed)
    ensures ValueOf(IntegerDigits(f)) == f.cents / 100
    ensures ValueOf(FractionDigits(f)) == f.cents % 100
    ensures ValueOf(IntegerDigits(f)) * 100 + ValueOf(FractionDigits(f)) == f.cents
  {
    NumeralRoundTrip(f.cents / 100);
    FractionValue(f.cents);
  }

  lemma FractionValue(cents: nat)
    ensures ValueOf([DigitChar(cents % 100 / 10), DigitChar(cents % 10)]) == cents % 100
  {
    var hi, lo := cents % 100 / 10, cents % 10;
    var s := [DigitChar(hi), DigitChar(lo)];
    assert s[..1] == [DigitChar(hi)] && s[..1][..0] == [];
    assert DigitValue(DigitChar(hi)) == hi && DigitValue(DigitChar(lo)) == lo;
    assert ValueOf(s[..1]) == hi;
  }

  /** The text `toFixed(2)` produces. */
  function FixedText(f: Fixed): (t: string)
    ensures |t| >= 4 && t[|t| - 3] == '.' && AllDigits(t[|t| - 2..])
    ensures f.negative <==> t[0] == '-'
  {
    Sign(f) + IntegerDigits(f) + "." + FractionDigits(f)
  }

  /** The lookahead `(\d{3})+\.` matched at the start of `t`: one or more
      groups of three digits, then a full stop. */
  predicate GroupsThenDot(t: string)
    ensures GroupsThenDot(t) ==> |t| >= 4 && IsDigit(t[0]) && '.' in t
  {
    && |t| >= 4
    && AllDigits(t[..3])
    && (t[3] == '.' || GroupsThenDot(t[3..]))
  }

  /** The global replacement of `\d(?=(\d{3})+\.)` by `$&,`. Each match is a
      single digit and the lookahead consumes nothing, so every digit whose
      lookahead succeeds is matched and followed by a comma. */
  function InsertSeparators(s: string): (r: string)
    ensures |r| >= |s|
  {
    if s == [] then []
    else
      [s[0]] + (if IsDigit(s[0]) && GroupsThenDot(s[1..]) then "," else "")
      + InsertSeparators(s[1..])
  }

  /** The replacement only inserts commas: deleting them gives back the
      text it was applied to. */
  lemma {:induction false} InsertSeparatorsOnlyAddsCommas(s: string)
    ensures StripSeparators(InsertSeparators(s)) == StripSeparators(s)
  {
    if s != [] {
      var c := if IsDigit(s[0]) && GroupsThenDot(s[1..]) then "," else "";
      InsertSeparatorsOnlyAddsCommas(s[1..]);
      StripCons(s[0], c, InsertSeparators(s[1..]));
    }
  }

  /** Thousands grouping from the right: the last three digits form a group,
      and so on leftwards until at most three digits remain. */
  function Group(d: string): string
    decreases |d|
  {
    if |d| <= 3 then d else Group(d[..|d| - 3]) + "," + d[|d| - 3..]
  }

  /** Three more digits after a digit string add one more group. */
  lemma GroupAppend(a: string, b: string)
    requires |a| >= 1 && |b| == 3
    ensures Group(a + b) == Group(a) + "," + b
  {
    var d := a + b;
    assert d[..|d| - 3] == a && d[|d| - 3..] == b;
  }

  /** The text with every comma deleted. */
  function StripSeparators(s: string): (r: string)
    ensures |r| <= |s|
  {
    if s == [] then [] else (if s[0] == ',' then "" else [s[0]]) + StripSeparators(s[1..])
  }

  /** A grouped integer: a leading group of one to three digits, then any
      number of groups of a comma and exactly three digits. */
  predicate WellGrouped(g: string)
    decreases |g|
  {
    || (1 <= |g| <= 3 && AllDigits(g))
    || (&& |g| >= 5
        && AllDigits(g[|g| - 3..])
        && g[|g| - 4] == ','
        && WellGrouped(g[..|g| - 4]))
  }

  /** The dollar text for a rounded amount: `$`, then `toFixed`'s text with
      the separators the regular expression inserts. */
  function Render(f: Fixed): (r: string)
    ensures r == "$" + Sign(f) + Group(IntegerDigits(f)) + "." + FractionDigits(f)
    ensures StripSeparators(r) == "$" + FixedText(f)
  {
    SeparatorsAreGrouping(f);
    GroupedText(f);
    Prepend("$", Sign(f), Group(IntegerDigits(f)), FractionDigits(f));
    "$" + InsertSeparators(FixedText(f))
  }

  /** The grouped text, commas deleted, is `$` and `toFixed`'s text. */
  lemma GroupedText(f: Fixed)
    ensures StripSeparators("$" + Sign(f) + Group(IntegerDigits(f)) + "." + FractionDigits(f))
            == "$" + FixedText(f)
  {
    var sign, d, frac := Sign(f), IntegerDigits(f), FractionDigits(f);
    calc {
      StripSeparators("$" + sign + Group(d) + "." + frac);
      { GroupedStripsToFixed(sign, d, frac); }
      "$" + sign + d + "." + frac;
      { assert FixedText(f) == sign + d + "." + frac; }
      "$" + FixedText(f);
    }
  }

  /** `formatCurrency`. */
  function FormatCurrency(x: real): (r: string)
    requires Abs(x) < ExponentialThreshold
    ensures var f := ToFixed(x);
      r == "$" + Sign(f) + Group(IntegerDigits(f)) + "." + FractionDigits(f)
    ensures StripSeparators(r) == "$" + FixedText(ToFixed(x))
  {
    Render(ToFixed(x))
  }

  /** Deleting the commas of the grouped text gives `$` and `toFixed`'s
      text back. */
  lemma GroupedStripsToFixed(sign: string, d: string, frac: string)
    requires ',' !in sign && AllDigits(d) && AllDigits(frac)
    ensures StripSeparators("$" + sign + Group(d) + "." + frac) == "$" + sign + d + "." + frac
  {
    var pre, post := "$" + sign, "." + frac;
    GroupStrips(d);
    assert ',' !in post by {
      DigitsHaveNoComma(frac);
    }
    StripBetween(pre, Group(d), post);
    assert "$" + sign + Group(d) + "." + frac == pre + Group(d) + post;
    assert "$" + sign + d + "." + frac == pre + d + post;
  }

  // ---------------------------------------------------------------------
  // The lookahead
  // ---------------------------------------------------------------------

  /** In a digit string followed by `.`, the lookahead at position `k`
      succeeds exactly when a positive multiple of three digits remains. */
  lemma {:induction false} LookaheadCountsDigits(e: string, rest: string)
    requires AllDigits(e)
    requires |rest| >= 1 && rest[0] == '.'
    ensures GroupsThenDot(e + rest) <==> |e| > 0 && |e| % 3 == 0
  {
    var t := e + rest;
    if |e| < 3 {
      assert t[|e|] == '.';
      if |t| >= 4 {
        assert !IsDigit(t[..3][|e|]);
      }
    } else if |e| == 3 {
      assert t[..3] == e;
      assert t[3] == '.';
    } else {
      assert t[..3] == e[..3];
      assert t[3] == e[3];
      assert t[3..] == e[3..] + rest;
      LookaheadCountsDigits(e[3..], rest);
    }
  }

  /** Without a full stop the lookahead never succeeds. */
  lemma {:induction false} NoDotNoLookahead(t: string)
    requires '.' !in t
    ensures !GroupsThenDot(t)
  {
    if |t| >= 4 {
      assert t[3] in t;
      NoDotNoLookahead(t[3..]);
    }
  }

  /** A text without a full stop is left alone by the replacement. */
  lemma {:induction false} NoDotUnchanged(s: string)
    requires '.' !in s
    ensures InsertSeparators(s) == s
  {
    if s != [] {
      NoDotNoLookahead(s[1..]);
      NoDotUnchanged(s[1..]);
    }
  }

  // ---------------------------------------------------------------------
  // From the replacement to the grouping
  // ---------------------------------------------------------------------

  /** Digits with a comma after each position that has `n` plus a positive
      multiple of three digits to its right. */
  function Marked(a: string, n: nat): string {
    if a == [] then []
    else
      [a[0]] + (if |a| - 1 + n > 0 && (|a| - 1 + n) % 3 == 0 then "," else "")
      + Marked(a[1..], n)
  }

  /** On digits followed by the fraction, the replacement puts a comma
      exactly where a positive multiple of three digits follows. */
  lemma {:induction false} SeparatorsBeforeDot(a: string, rest: string)
    requires AllDigits(a)
    requires |rest| >= 1 && rest[0] == '.'
    ensures InsertSeparators(a + rest) == Marked(a, 0) + InsertSeparators(rest)
  {
    if a != [] {
      var s := a + rest;
      assert s[0] == a[0];
      assert s[1..] == a[1..] + rest;
      LookaheadCountsDigits(a[1..], rest);
      SeparatorsBeforeDot(a[1..], rest);
      var c := if |a| - 1 > 0 && (|a| - 1) % 3 == 0 then "," else "";
      assert (IsDigit(s[0]) && GroupsThenDot(s[1..])) <==> (|a| - 1 > 0 && (|a| - 1) % 3 == 0);
      assert InsertSeparators(s) == [a[0]] + c + InsertSeparators(a[1..] + rest);
      assert Marked(a, 0) == [a[0]] + c + Marked(a[1..], 0);
    } else {
      assert a + rest == rest;
    }
  }

  lemma {:induction false} MarkedAppend(a: string, b: string, n: nat)
    ensures Marked(a + b, n) == Marked(a, |b| + n) + Marked(b, n)
  {
    if a != [] {
      var ab := a + b;
      assert ab[0] == a[0];
      assert ab[1..] == a[1..] + b;
      assert |ab| - 1 + n == |a| - 1 + (|b| + n);
      MarkedAppend(a[1..], b, n);
      var c := if |a| - 1 + (|b| + n) > 0 && (|a| - 1 + (|b| + n)) % 3 == 0 then "," else "";
      assert Marked(ab, n) == [a[0]] + c + Marked(a[1..] + b, n);
      assert Marked(a, |b| + n) == [a[0]] + c + Marked(a[1..], |b| + n);
    } else {
      assert a + b == b;
    }
  }

  /** Three more digits to the right add a comma after the last digit and
      change nothing else. */
  lemma {:induction false} MarkedShift(a: string)
    requires |a| >= 1
    ensures Marked(a, 3) == Marked(a, 0) + ","
  {
    if |a| > 1 {
      MarkedShift(a[1..]);
    }
  }

  lemma {:induction false} MarkedShort(b: string)
    requires |b| <= 3
    ensures Marked(b, 0) == b
  {
    if b != [] {
      MarkedShort(b[1..]);
    }
  }

  lemma {:induction false} MarkedIsGroup(d: string)
    decreases |d|
    ensures Marked(d, 0) == Group(d)
  {
    if |d| <= 3 {
      MarkedShort(d);
    } else {
      var a, b := d[..|d| - 3], d[|d| - 3..];
      assert d == a + b;
      MarkedAppend(a, b, 0);
      MarkedShift(a);
      MarkedShort(b);
      MarkedIsGroup(a);
    }
  }

  /** The regular-expression replacement applied to `toFixed`'s text groups
      the integer digits by thousands and leaves sign and fraction alone. */
  lemma SeparatorsAreGrouping(f: Fixed)
    ensures InsertSeparators(FixedText(f))
            == Sign(f) + Group(IntegerDigits(f)) + "." + FractionDigits(f)
  {
    SeparatorsGroupDigits(Sign(f), IntegerDigits(f), FractionDigits(f));
  }

  lemma SeparatorsGroupDigits(sign: string, d: string, frac: string)
    requires sign == "" || sign == "-"
    requires AllDigits(d) && AllDigits(frac)
    ensures InsertSeparators(sign + d + "." + frac) == sign + Group(d) + "." + frac
  {
    var rest := "." + frac;
    assert '.' !in frac by {
      DigitsHaveNoDot(frac);
    }
    NoDotUnchanged(frac);
    assert InsertSeparators(rest) == rest by {
      assert rest[1..] == frac;
    }
    SeparatorsBeforeDot(d, rest);
    MarkedIsGroup(d);
    assert InsertSeparators(d + rest) == Group(d) + rest;
    SignUnchanged(sign, d + rest);
    Regroup(sign, d, frac);
    Regroup(sign, Group(d), frac);
  }

  /* `Prepend` and `Regroup` are only re-bracketings of a concatenation.
     They are stated apart because the same facts asserted inside `Render`
     and `SeparatorsGroupDigits` leave those proofs out of resource. */
  lemma Prepend(dollar: string, sign: string, g: string, frac: string)
    ensures dollar + (sign + g + "." + frac) == dollar + sign + g + "." + frac
  {
  }

  lemma Regroup(sign: string, d: string, frac: string)
    ensures sign + d + "." + frac == sign + (d + ("." + frac))
  {
  }

  lemma DigitsHaveNoDot(d: string)
    requires AllDigits(d)
    ensures '.' !in d
  {
  }

  /** The minus sign is not a digit, so the replacement passes over it. */
  lemma SignUnchanged(sign: string, t: string)
    requires sign == "" || sign == "-"
    ensures InsertSeparators(sign + t) == sign + InsertSeparators(t)
  {
    if sign == "-" {
      var s := sign + t;
      assert s[0] == '-' && s[1..] == t;
    } else {
      assert sign + t == t;
    }
  }

  // ---------------------------------------------------------------------
  // Shape of the grouping
  // ---------------------------------------------------------------------

  lemma {:induction false} StripAppend(a: string, b: string)
    ensures StripSeparators(a + b) == StripSeparators(a) + StripSeparators(b)
  {
    if a != [] {
      var ab := a + b;
      assert ab[0] == a[0];
      assert ab[1..] == a[1..] + b;
      StripAppend(a[1..], b);
      var c := if a[0] == ',' then "" else [a[0]];
      assert StripSeparators(ab) == c + StripSeparators(a[1..] + b);
      assert StripSeparators(a) == c + StripSeparators(a[1..]);
    } else {
      assert a + b == b;
    }
  }

  /** Deleting the commas of one character, an optional comma and the rest. */
  lemma StripCons(x: char, c: string, rest: string)
    requires c == "" || c == ","
    ensures StripSeparators([x] + c + rest) == (if x == ',' then "" else [x]) + StripSeparators(rest)
  {
    StripAppend([x] + c, rest);
    StripAppend([x], c);
    assert [x][1..] == [];
    assert StripSeparators(c) == [];
  }

  /** Deleting commas around a comma-free prefix and suffix. */
  lemma StripBetween(pre: string, m: string, post: string)
    requires ',' !in pre && ',' !in post
    ensures StripSeparators(pre + m + post) == pre + StripSeparators(m) + post
  {
    StripAppend(pre, m);
    StripAppend(pre + m, post);
    StripNoComma(pre);
    StripNoComma(post);
  }

  lemma {:induction false} StripNoComma(s: string)
    requires ',' !in s
    ensures StripSeparators(s) == s
  {
    if s != [] {
      assert s[0] in s;
      StripNoComma(s[1..]);
    }
  }

  lemma DigitsHaveNoComma(d: string)
    requires AllDigits(d)
    ensures ',' !in d
  {
  }

  /** Grouping only inserts commas: deleting them gives the digits back. */
  lemma {:induction false} GroupStrips(d: string)
    requires AllDigits(d)
    decreases |d|
    ensures StripSeparators(Group(d)) == d
  {
    DigitsHaveNoComma(d);
    if |d| <= 3 {
      StripNoComma(d);
    } else {
      var a, b := d[..|d| - 3], d[|d| - 3..];
      assert d == a + b;
      assert AllDigits(a) && AllDigits(b);
      DigitsHaveNoComma(b);
      StripAfterComma(Group(a), b);
      GroupStrips(a);
    }
  }

  /** Deleting the commas of a grouped prefix, a comma and a comma-free
      group leaves the prefix's digits followed by the group. */
  lemma StripAfterComma(g: string, b: string)
    requires ',' !in b
    ensures StripSeparators(g + "," + b) == StripSeparators(g) + b
  {
    StripAppend(g + ",", b);
    StripAppend(g, ",");
    StripNoComma(b);
  }

  /** Grouping a non-empty digit string yields a leading group of one to
      three digits followed by comma-separated groups of exactly three. */
  lemma {:induction false} GroupWellGrouped(d: string)
    requires |d| >= 1 && AllDigits(d)
    decreases |d|
    ensures WellGrouped(Group(d))
  {
    if |d| > 3 {
      var a, b := d[..|d| - 3], d[|d| - 3..];
      assert AllDigits(a);
      GroupWellGrouped(a);
      var g := Group(d);
      assert g == Group(a) + "," + b;
      assert g[|g| - 3..] == b;
      assert g[..|g| - 4] == Group(a);
    }
  }

  /** The grouping is the only one of its shape: two well-grouped texts with
      the same digits are equal. */
  lemma {:induction false} WellGroupedUnique(g: string, h: string)
    requires WellGrouped(g) && WellGrouped(h)
    requires StripSeparators(g) == StripSeparators(h)
    decreases |g|
    ensures g == h
  {
    WellGroupedStrip(g);
    WellGroupedStrip(h);
    if |g| <= 3 {
      assert |h| <= 3;
      StripNoComma(g);
      StripNoComma(h);
    } else {
      assert |h| > 3;
      WellGroupedSplit(g);
      WellGroupedSplit(h);
      var g', h' := g[..|g| - 4], h[..|h| - 4];
      var s := StripSeparators(g);
      SplitAt(StripSeparators(g'), g[|g| - 3..], s);
      SplitAt(StripSeparators(h'), h[|h| - 3..], s);
      WellGroupedUnique(g', h');
      assert g == g' + "," + g[|g| - 3..];
      assert h == h' + "," + h[|h| - 3..];
    }
  }

  lemma AllDigitsAppend(a: string, b: string)
    requires AllDigits(a) && AllDigits(b)
    ensures AllDigits(a + b)
  {
    var s := a + b;
    forall k | 0 <= k < |s|
      ensures IsDigit(s[k])
    {
      if k < |a| {
        assert s[k] == a[k];
      } else {
        assert s[k] == b[k - |a|];
      }
    }
  }

  /** A well-grouped text with a comma splits into the part before its last
      comma and the final three digits. */
  lemma WellGroupedSplit(g: string)
    requires WellGrouped(g) && |g| > 3
    ensures WellGrouped(g[..|g| - 4]) && AllDigits(g[|g| - 3..])
    ensures StripSeparators(g) == StripSeparators(g[..|g| - 4]) + g[|g| - 3..]
  {
    var g', gs := g[..|g| - 4], g[|g| - 3..];
    assert g == (g' + ",") + gs;
    StripAppend(g' + ",", gs);
    StripAppend(g', ",");
    DigitsHaveNoComma(gs);
    StripNoComma(gs);
  }

  lemma SplitAt(x: string, y: string, s: string)
    requires s == x + y
    ensures s[..|x|] == x && s[|x|..] == y
  {
  }

  /** What deleting the commas of a well-grouped text leaves: its digits,
      at least four of them when there is a comma. */
  lemma {:induction false} WellGroupedStrip(g: string)
    requires WellGrouped(g)
    decreases |g|
    ensures AllDigits(StripSeparators(g))
    ensures |g| <= 3 ==> ',' !in g
    ensures |g| > 3 <==> |StripSeparators(g)| > 3
  {
    if |g| <= 3 {
      DigitsHaveNoComma(g);
      StripNoComma(g);
    } else {
      var g' := g[..|g| - 4];
      WellGroupedSplit(g);
      WellGroupedStrip(g');
      AllDigitsAppend(StripSeparators(g'), g[|g| - 3..]);
      if |g'| <= 3 {
        assert |StripSeparators(g')| >= 1;
      }
    }
  }

  // ---------------------------------------------------------------------
  // Properties of formatCurrency
  // ---------------------------------------------------------------------

  /** The output is `$`, the sign, a well-grouped integer part, a full stop
      and exactly two fraction digits that carry no comma. */
  lemma FormatCurrencyShape(x: real)
    requires Abs(x) < ExponentialThreshold
    ensures var r := FormatCurrency(x);
      var f := ToFixed(x);
      var g := Group(IntegerDigits(f));
      && r[0] == '$'
      && WellGrouped(g)
      && StripSeparators(g) == IntegerDigits(f)
      && r[|r| - 3] == '.'
      && AllDigits(r[|r| - 2..])
      && ValueOf(r[|r| - 2..]) == f.cents % 100
  {
    var f := ToFixed(x);
    FixedDigitsDenoteCents(f);
    GroupWellGrouped(IntegerDigits(f));
    GroupStrips(IntegerDigits(f));
    var r := FormatCurrency(x);
    assert r[|r| - 2..] == FractionDigits(f);
  }

  /** The regular expression's output is the one and only well-grouped
      rendering: any text built from `$`, the sign, a well-grouped integer
      part whose digits are `toFixed`'s, a full stop and the fraction digits
      is exactly what `formatCurrency` returns. */
  lemma FormatCurrencyIsTheGrouping(x: real, g: string)
    requires Abs(x) < ExponentialThreshold
    requires WellGrouped(g) && StripSeparators(g) == IntegerDigits(ToFixed(x))
    ensures FormatCurrency(x) == "$" + Sign(ToFixed(x)) + g + "." + FractionDigits(ToFixed(x))
  {
    var d := IntegerDigits(ToFixed(x));
    GroupWellGrouped(d);
    GroupStrips(d);
    WellGroupedUnique(Group(d), g);
  }

  /** Amounts that round to less than 1000 dollars carry no comma. */
  lemma NoSeparatorBelowThousand(x: real)
    requires Abs(x) < ExponentialThreshold
    requires ToFixed(x).cents < 100000
    ensures ',' !in FormatCurrency(x)
  {
    var f := ToFixed(x);
    NumeralShort(f.cents / 100);
    var d := IntegerDigits(f);
    DigitsHaveNoComma(d);
    DigitsHaveNoComma(FractionDigits(f));
    var r := FormatCurrency(x);
    assert r == "$" + Sign(f) + d + "." + FractionDigits(f);
    assert ',' !in r;
  }

  /** Every amount strictly below 999.995 in size rounds below 1000 and so
      carries no comma. (999.995 itself rounds up to "$1,000.00".) */
  lemma SmallAmountsUnseparated(x: real)
    requires Abs(x) < 999.995
    ensures ',' !in FormatCurrency(x)
  {
    NoSeparatorBelowThousand(x);
  }

  /** The integer digits of a fixed-point value whose whole part is known. */
  lemma IntegerDigitsOf(f: Fixed, dollars: nat)
    requires f.cents / 100 == dollars
    ensures IntegerDigits(f) == Numeral(dollars)
  {
  }

  /** The fraction digits of a fixed-point value whose cents are known. */
  lemma FractionDigitsOf(f: Fixed, tens: nat, ones: nat)
    requires f.cents % 100 / 10 == tens < 10 && f.cents % 10 == ones < 10
    ensures FractionDigits(f) == [DigitChar(tens), DigitChar(ones)]
  {
  }

  /** The rendered text assembled from its already-known parts. */
  lemma RenderParts(f: Fixed, dollars: nat, tens: nat, ones: nat,
                    sign: string, digits: string, grouped: string, frac: string, text: string)
    requires f.cents / 100 == dollars && Numeral(dollars) == digits && Group(digits) == grouped
    requires f.cents % 100 / 10 == tens < 10 && f.cents % 10 == ones < 10
    requires [DigitChar(tens), DigitChar(ones)] == frac
    requires Sign(f) == sign
    requires "$" + sign + grouped + "." + frac == text
    ensures Render(f) == text
  {
    IntegerDigitsOf(f, dollars);
    FractionDigitsOf(f, tens, ones);
  }

  /** The default monthly spend is shown as "$5,000.00". */
  lemma FiveThousand()
    ensures FormatCurrency(5000.0) == "$5,000.00"
  {
    var f := ToFixed(5000.0);
    assert !f.negative && f.cents == 500000;
    RenderFiveThousand(f);
  }

  lemma RenderFiveThousand(f: Fixed)
    requires !f.negative && f.cents == 500000
    ensures Render(f) == "$5,000.00"
  {
    assert Numeral(5000) == "5000" by {
      NumeralAppendDigit(5, 0);
      NumeralAppendDigit(50, 0);
      NumeralAppendDigit(500, 0);
    }
    assert Group("5000") == "5,000" by {
      GroupAppend("5", "000");
    }
    RenderParts(f, 5000, 0, 0, "", "5000", "5,000", "00", "$5,000.00");
  }

  /** Zero is shown as "$0.00". */
  lemma Zero()
    ensures FormatCurrency(0.0) == "$0.00"
  {
    var f := ToFixed(0.0);
    assert !f.negative && f.cents == 0;
    RenderZero(f);
  }

  lemma RenderZero(f: Fixed)
    requires f.cents == 0
    ensures Render(f) == "$" + Sign(f) + "0.00"
  {
    RenderParts(f, 0, 0, 0, Sign(f), "0", "0", "00", "$" + Sign(f) + "0.00");
  }

  /** A negative amount keeps its minus sign after the dollar sign, even
      when it rounds to zero cents. */
  lemma NegativeAmount()
    ensures FormatCurrency(-1234.5) == "$-1,234.50"
  {
    var f := ToFixed(-1234.5);
    assert f.negative && f.cents == 123450;
    RenderNegative(f);
  }

  lemma NegativeRoundsToZero()
    ensures FormatCurrency(-0.001) == "$-0.00"
  {
    var z := ToFixed(-0.001);
    assert z.negative && z.cents == 0;
    RenderZero(z);
  }

  lemma RenderNegative(f: Fixed)
    requires f.negative && f.cents == 123450
    ensures Render(f) == "$-1,234.50"
  {
    assert Numeral(1234) == "1234" by {
      NumeralAppendDigit(1, 2);
      NumeralAppendDigit(12, 3);
      NumeralAppendDigit(123, 4);
    }
    assert Group("1234") == "1,234" by {
      GroupAppend("1", "234");
    }
    RenderParts(f, 1234, 5, 0, "-", "1234", "1,234", "50", "$-1,234.50");
  }
}

=== FILE: navigation.dfy ===
/** The page's navigation handlers as a small state machine: the `active`
    class on the navigation list and on the hamburger control, and the
    `scrolled` class on the header. Scrolling the page into view is
    recorded as the selector scrolled to. */
module Navigation {
  import opened Wrappers

  datatype NavState = NavState(navActive: bool, hamburgerActive: bool, scrolled: bool)

  /** The page as loaded, assuming its HTML sets neither `active` class nor
      `scrolled`: menu closed, header not scrolled. */
  const Initial: NavState := NavState(false, false, false)

  /** The header counts as scrolled strictly beyond this many pixels. */
  const ScrollThreshold: real := 100.0

  /** Menu and control show the same state. */
  predicate MenuInSync(s: NavState) {
    s.navActive == s.hamburgerActive
  }

  /** A hamburger click toggles `active` on the list and on the control. */
  function ToggleMenu(s: NavState): (t: NavState)
    ensures t.navActive == !s.navActive && t.hamburgerActive == !s.hamburgerActive
    ensures t.scrolled == s.scrolled
    ensures MenuInSync(t) <==> MenuInSync(s)
  {
    s.(navActive := !s.navActive, hamburgerActive := !s.hamburgerActive)
  }

  /** A scroll event sets `scrolled` from the current offset alone; there is
      no hysteresis, and exactly 100 pixels is not scrolled. */
  function OnScroll(s: NavState, scrollY: real): (t: NavState)
    ensures t.scrolled <==> scrollY > ScrollThreshold
    ensures t.navActive == s.navActive && t.hamburgerActive == s.hamburgerActive
  {
    s.(scrolled := scrollY > ScrollThreshold)
  }

  /** What a click on an in-page link does. */
  datatype AnchorResult = AnchorResult(state: NavState, scrolledTo: Option<string>)

  /** Only links whose `href` begins with `#` get the smooth-scroll handler. */
  predicate InPageLink(href: string) {
    |href| >= 1 && href[0] == '#'
  }

  /** A click on a link. `targets` holds the selectors that find an element
      in the page. A bare `#` or a selector that finds nothing leaves
      everything as it was; otherwise the page scrolls to the target, and
      an open menu is closed (both classes removed). */
  function OnAnchorClick(s: NavState, href: string, targets: set<string>): (r: AnchorResult)
    ensures !InPageLink(href) || href == "#" || href !in targets ==> r == AnchorResult(s, None)
    ensures InPageLink(href) && href != "#" && href in targets ==>
      && r.scrolledTo == Some(href)
      && r.state.scrolled == s.scrolled
      && (s.navActive ==> !r.state.navActive && !r.state.hamburgerActive)
      && (!s.navActive ==> r.state == s)
  {
    if !InPageLink(href) || href == "#" then AnchorResult(s, None)
    else if href !in targets then AnchorResult(s, None)
    else if s.navActive then
      AnchorResult(s.(navActive := false, hamburgerActive := false), Some(href))
    else AnchorResult(s, Some(href))
  }

  /** The events the handlers react to. */
  datatype Event = HamburgerClick | Scroll(scrollY: real) | LinkClick(href: string)

  /** One event, dispatched to its handler. Only a scroll event touches the
      header, and a scroll event never touches the menu. */
  function Step(s: NavState, e: Event, targets: set<string>): (t: NavState)
    ensures !e.Scroll? ==> t.scrolled == s.scrolled
    ensures e.Scroll? ==> t.navActive == s.navActive && t.hamburgerActive == s.hamburgerActive
  {
    match e
    case HamburgerClick => ToggleMenu(s)
    case Scroll(y) => OnScroll(s, y)
    case LinkClick(href) => OnAnchorClick(s, href, targets).state
  }

  /** The state after a sequence of events, in order. */
  function Run(s: NavState, events: seq<Event>, targets: set<string>): (t: NavState)
    decreases |events|
    ensures (forall k :: 0 <= k < |events| ==> !events[k].Scroll?) ==> t.scrolled == s.scrolled
  {
    if events == [] then s else Run(Step(s, events[0], targets), events[1..], targets)
  }

  /** Every single event keeps menu and control in step. */
  lemma StepKeepsMenuInSync(s: NavState, e: Event, targets: set<string>)
    requires MenuInSync(s)
    ensures MenuInSync(Step(s, e, targets))
  {
  }

  /** From any state where menu and control agree, they agree after every
      sequence of events. */
  lemma {:induction false} RunKeepsMenuInSync(s: NavState, events: seq<Event>, targets: set<string>)
    requires MenuInSync(s)
    decreases |events|
    ensures MenuInSync(Run(s, events, targets))
  {
    if events != [] {
      StepKeepsMenuInSync(s, events[0], targets);
      RunKeepsMenuInSync(Step(s, events[0], targets), events[1..], targets);
    }
  }

  /** From the loaded page on (see `Initial`), menu and control always agree. */
  lemma MenuInSyncFromLoad(events: seq<Event>, targets: set<string>)
    ensures MenuInSync(Run(Initial, events, targets))
  {
    RunKeepsMenuInSync(Initial, events, targets);
  }

  /** Running a sequence and then one more event is a step after the run. */
  lemma {:induction false} RunSnoc(s: NavState, events: seq<Event>, e: Event, targets: set<string>)
    decreases |events|
    ensures Run(s, events + [e], targets) == Step(Run(s, events, targets), e, targets)
  {
    if events == [] {
      assert events + [e] == [e];
      assert [e][1..] == [];
    } else {
      assert (events + [e])[0] == events[0];
      assert (events + [e])[1..] == events[1..] + [e];
      RunSnoc(Step(s, events[0], targets), events[1..], e, targets);
    }
  }

  /** Running two sequences one after the other is running their
      concatenation. */
  lemma {:induction false} RunAppend(s: NavState, a: seq<Event>, b: seq<Event>, targets: set<string>)
    decreases |a|
    ensures Run(s, a + b, targets) == Run(Run(s, a, targets), b, targets)
  {
    if a == [] {
      assert a + b == b;
    } else {
      assert (a + b)[0] == a[0];
      assert (a + b)[1..] == a[1..] + b;
      RunAppend(Step(s, a[0], targets), a[1..], b, targets);
    }
  }

  /** The header's state is decided by the latest scroll event alone,
      whatever clicks follow it. */
  lemma LastScrollDecides(s: NavState, before: seq<Event>, y: real, after: seq<Event>, targets: set<string>)
    requires forall k :: 0 <= k < |after| ==> !after[k].Scroll?
    ensures Run(s, before + [Scroll(y)] + after, targets).scrolled <==> y > ScrollThreshold
  {
    RunAppend(s, before + [Scroll(y)], after, targets);
    RunSnoc(s, before, Scroll(y), targets);
  }

  /** Two hamburger clicks in a row leave everything as it was. */
  lemma DoubleToggleIsIdentity(s: NavState, targets: set<string>)
    ensures Run(s, [HamburgerClick, HamburgerClick], targets) == s
  {
    assert [HamburgerClick, HamburgerClick][1..] == [HamburgerClick];
  }

  /** A link click with a found target leaves the menu closed. */
  lemma LinkClickClosesMenu(s: NavState, href: string, targets: set<string>)
    requires MenuInSync(s)
    requires InPageLink(href) && href != "#" && href in targets
    ensures var t := Step(s, LinkClick(href), targets);
      !t.navActive && !t.hamburgerActive
  {
  }
}

=== FILE: page.dfy ===
/** The calculator as the page shows it: `calculateROI`'s figures written
    out by `formatCurrency`. */
module Page {
  import opened Wrappers
  import Roi
  import Currency

  /** With the four fields blank, or holding 50, 100, 10 and 3500, the
      calculator shows $5,000.00 spend, $500.00 per acquisition, $0.00
      wasted, $315,000.00 missed and $70,000.00 of potential revenue. */
  lemma DefaultDisplay()
    ensures Roi.CalculateRoi(Roi.AllBlank) == Roi.DefaultOutputs
    ensures Roi.CalculateRoi(Roi.RawInputs(Some(50.0), Some(100.0), Some(10.0), Some(3500.0)))
            == Roi.DefaultOutputs
    ensures Currency.FormatCurrency(Roi.DefaultOutputs.monthlySpend) == "$5,000.00"
    ensures Currency.FormatCurrency(Roi.DefaultOutputs.acquisitionCost) == "$500.00"
    ensures Currency.FormatCurrency(Roi.DefaultOutputs.wastedSpend) == "$0.00"
    ensures Currency.FormatCurrency(Roi.DefaultOutputs.missedRevenue) == "$315,000.00"
    ensures Currency.FormatCurrency(Roi.DefaultOutputs.potentialRevenue) == "$70,000.00"
  {
    Roi.BlankInputsGiveDefaultOutputs();
    Roi.OutputsDependOnlyOnDefaultedInputs(
      Roi.RawInputs(Some(50.0), Some(100.0), Some(10.0), Some(3500.0)), Roi.AllBlank);
    Currency.FiveThousand();
    Currency.Zero();
    FiveHundred();
    ThreeFifteenThousand();
    SeventyThousand();
  }

  lemma FiveHundred()
    ensures Currency.FormatCurrency(500.0) == "$500.00"
  {
    var f := Currency.ToFixed(500.0);
    assert !f.negative && f.cents == 50000;
    RenderFiveHundred(f);
  }

  lemma RenderFiveHundred(f: Currency.Fixed)
    requires !f.negative && f.cents == 50000
    ensures Currency.Render(f) == "$500.00"
  {
    assert Currency.Numeral(500) == "500" by {
      Currency.NumeralAppendDigit(5, 0);
      Currency.NumeralAppendDigit(50, 0);
    }
    Currency.RenderParts(f, 500, 0, 0, "", "500", "500", "00", "$500.00");
  }

  lemma ThreeFifteenThousand()
    ensures Currency.FormatCurrency(315000.0) == "$315,000.00"
  {
    var f := Currency.ToFixed(315000.0);
    assert !f.negative && f.cents == 31500000;
    RenderThreeFifteenThousand(f);
  }

  lemma RenderThreeFifteenThousand(f: Currency.Fixed)
    requires !f.negative && f.cents == 31500000
    ensures Currency.Render(f) == "$315,000.00"
  {
    assert Currency.Numeral(315000) == "315000" by {
      Currency.NumeralAppendDigit(3, 1);
      Currency.NumeralAppendDigit(31, 5);
      Currency.NumeralAppendDigit(315, 0);
      Currency.NumeralAppendDigit(3150, 0);
      Currency.NumeralAppendDigit(31500, 0);
    }
    assert Currency.Group("315000") == "315,000" by {
      Currency.GroupAppend("315", "000");
    }
    Currency.RenderParts(f, 315000, 0, 0, "", "315000", "315,000", "00", "$315,000.00");
  }

  lemma SeventyThousand()
    ensures Currency.FormatCurrency(70000.0) == "$70,000.00"
  {
    var f := Currency.ToFixed(70000.0);
    assert !f.negative && f.cents == 7000000;
    RenderSeventyThousand(f);
  }

  lemma RenderSeventyThousand(f: Currency.Fixed)
    requires !f.negative && f.cents == 7000000
    ensures Currency.Render(f) == "$70,000.00"
  {
    assert Currency.Numeral(70000) == "70000" by {
      Currency.NumeralAppendDigit(7, 0);
      Currency.NumeralAppendDigit(70, 0);
      Currency.NumeralAppendDigit(700, 0);
      Currency.NumeralAppendDigit(7000, 0);
    }
    assert Currency.Group("70000") == "70,000" by {
      Currency.GroupAppend("70", "000");
    }
    Currency.RenderParts(f, 70000, 0, 0, "", "70000", "70,000", "00", "$70,000.00");
  }
}

=== FILE: roi.dfy ===
/** The lead-generation ROI calculator of `calculateROI`: four numeric
    inputs, each replaced by a default when it is missing or zero, and a
    fixed formula that derives the monthly figures from them.

    The browser computes in IEEE-754 doubles; this model computes in exact
    rational arithmetic (`real`), so every identity below is exact. */
module Roi {
  import opened Wrappers

  /** What `parseFloat` made of each of the four input fields: `None` is NaN. */
  datatype RawInputs = RawInputs(
    costPerLead: Option<real>,
    leadsPerMonth: Option<real>,
    conversionRate: Option<real>,
    orderValue: Option<real>)

  /** The four inputs after default substitution. */
  datatype Inputs = Inputs(
    costPerLead: real,
    leadsPerMonth: real,
    conversionRate: real,
    orderValue: real)

  /** The figures `calculateROI` derives; the two conversion counts are
      whole numbers because they come out of `Math.round`. */
  datatype Outputs = Outputs(
    monthlySpend: real,
    convertedLeads: int,
    notConvertedLeads: real,
    acquisitionCost: real,
    wastedSpend: real,
    missedRevenue: real,
    additionalConversions: int,
    potentialRevenue: real)

  const DefaultCostPerLead: real := 50.0
  const DefaultLeadsPerMonth: real := 100.0
  const DefaultConversionRate: real := 10.0
  const DefaultOrderValue: real := 3500.0

  /** The fixed share of unconverted leads the AI offer claims to convert. */
  const AiImprovement: real := 0.22

  /** JavaScript's `parsed || default` on a number: NaN and 0 are falsy, so
      both give way to the default; every other number is kept. */
  function OrDefault(parsed: Option<real>, default: real): (r: real)
    ensures parsed.Some? && parsed.value != 0.0 ==> r == parsed.value
    ensures parsed.None? || parsed.value == 0.0 ==> r == default
    ensures default != 0.0 ==> r != 0.0
  {
    if parsed.Some? && parsed.value != 0.0 then parsed.value else default
  }

  /** The input-reading step: every field defaulted on its own. */
  function ReadInputs(raw: RawInputs): (i: Inputs)
    ensures i.costPerLead == OrDefault(raw.costPerLead, DefaultCostPerLead)
    ensures i.leadsPerMonth == OrDefault(raw.leadsPerMonth, DefaultLeadsPerMonth)
    ensures i.conversionRate == OrDefault(raw.conversionRate, DefaultConversionRate)
    ensures i.orderValue == OrDefault(raw.orderValue, DefaultOrderValue)
    ensures i.costPerLead != 0.0 && i.leadsPerMonth != 0.0
    ensures i.conversionRate != 0.0 && i.orderValue != 0.0
  {
    Inputs(
      OrDefault(raw.costPerLead, DefaultCostPerLead),
      OrDefault(raw.leadsPerMonth, DefaultLeadsPerMonth),
      OrDefault(raw.conversionRate, DefaultConversionRate),
      OrDefault(raw.orderValue, DefaultOrderValue))
  }

  /** JavaScript's `Math.round`: the integer nearest to `x`, a tie going
      towards positive infinity. */
  function Round(x: real): (r: int)
    ensures x - 0.5 < r as real <= x + 0.5
  {
    (x + 0.5).Floor
  }

  /** The arithmetic of `calculateROI` on already-defaulted inputs. */
  function Compute(i: Inputs): (o: Outputs)
    ensures o.monthlySpend == i.costPerLead * i.leadsPerMonth
    ensures o.convertedLeads as real + o.notConvertedLeads == i.leadsPerMonth
    ensures i.leadsPerMonth * i.conversionRate / 100.0 - 0.5 < o.convertedLeads as real
    ensures o.convertedLeads as real <= i.leadsPerMonth * i.conversionRate / 100.0 + 0.5
    ensures o.convertedLeads > 0 ==> o.acquisitionCost * o.convertedLeads as real == o.monthlySpend
    ensures o.convertedLeads <= 0 ==> o.acquisitionCost == 0.0
    ensures o.convertedLeads > 0 ==> o.wastedSpend == 0.0
    ensures o.convertedLeads <= 0 ==> o.wastedSpend == o.monthlySpend
    ensures o.missedRevenue == o.notConvertedLeads * i.orderValue
    ensures o.notConvertedLeads * AiImprovement - 0.5 < o.additionalConversions as real
    ensures o.additionalConversions as real <= o.notConvertedLeads * AiImprovement + 0.5
    ensures o.potentialRevenue == o.additionalConversions as real * i.orderValue
  {
    var monthlySpend := i.costPerLead * i.leadsPerMonth;
    var convertedLeads := Round(i.leadsPerMonth * (i.conversionRate / 100.0));
    var notConvertedLeads := i.leadsPerMonth - convertedLeads as real;
    var acquisitionCost := if convertedLeads > 0 then monthlySpend / convertedLeads as real else 0.0;
    var wastedSpend := monthlySpend - convertedLeads as real * acquisitionCost;
    var missedRevenue := notConvertedLeads * i.orderValue;
    var additionalConversions := Round(notConvertedLeads * AiImprovement);
    var potentialRevenue := additionalConversions as real * i.orderValue;
    Outputs(monthlySpend, convertedLeads, notConvertedLeads, acquisitionCost,
            wastedSpend, missedRevenue, additionalConversions, potentialRevenue)
  }

  /** The whole calculator: read with defaults, then compute. */
  function CalculateRoi(raw: RawInputs): (o: Outputs)
    ensures o.convertedLeads as real + o.notConvertedLeads != 0.0
    ensures o.convertedLeads as real + o.notConvertedLeads == ReadInputs(raw).leadsPerMonth
  {
    Compute(ReadInputs(raw))
  }

  /** The outputs for blank fields, or for fields holding 50, 100, 10 and 3500. */
  const DefaultOutputs: Outputs := Outputs(
    monthlySpend := 5000.0,
    convertedLeads := 10,
    notConvertedLeads := 90.0,
    acquisitionCost := 500.0,
    wastedSpend := 0.0,
    missedRevenue := 315000.0,
    additionalConversions := 20,
    potentialRevenue := 70000.0)

  const AllBlank: RawInputs := RawInputs(None, None, None, None)
  const AllZero: RawInputs := RawInputs(Some(0.0), Some(0.0), Some(0.0), Some(0.0))

  /** Blank fields produce the advertised default figures; in particular
      90 x 0.22 = 19.8 rounds to 20 additional conversions. */
  lemma BlankInputsGiveDefaultOutputs()
    ensures CalculateRoi(AllBlank) == DefaultOutputs
  {
    var i := ReadInputs(AllBlank);
    assert i == Inputs(50.0, 100.0, 10.0, 3500.0);
    assert Round(100.0 * (10.0 / 100.0)) == 10;
    assert Round(90.0 * AiImprovement) == 20;
  }

  /** Fields holding zero are indistinguishable from blank fields: a lead
      count of 0 is read as 100, not as zero leads. */
  lemma ZeroInputsGiveDefaultOutputs()
    ensures CalculateRoi(AllZero) == DefaultOutputs
  {
    assert ReadInputs(AllZero) == ReadInputs(AllBlank);
    BlankInputsGiveDefaultOutputs();
  }

  /** When too few leads are entered for any to convert (one lead at the
      default 10%), there is no division: the acquisition cost is 0 and the
      whole spend is counted as wasted. */
  lemma OneLeadConvertsNone()
    ensures var o := CalculateRoi(RawInputs(None, Some(1.0), None, None));
      && o.convertedLeads == 0
      && o.acquisitionCost == 0.0
      && o.wastedSpend == o.monthlySpend == 50.0
  {
    assert Round(1.0 * (10.0 / 100.0)) == 0;
  }

  /** The outputs depend on the raw fields only through their defaulted
      values: two entries that default to the same inputs agree everywhere. */
  lemma OutputsDependOnlyOnDefaultedInputs(a: RawInputs, b: RawInputs)
    requires OrDefault(a.costPerLead, DefaultCostPerLead) == OrDefault(b.costPerLead, DefaultCostPerLead)
    requires OrDefault(a.leadsPerMonth, DefaultLeadsPerMonth) == OrDefault(b.leadsPerMonth, DefaultLeadsPerMonth)
    requires OrDefault(a.conversionRate, DefaultConversionRate) == OrDefault(b.conversionRate, DefaultConversionRate)
    requires OrDefault(a.orderValue, DefaultOrderValue) == OrDefault(b.orderValue, DefaultOrderValue)
    ensures CalculateRoi(a) == CalculateRoi(b)
  {
    assert ReadInputs(a) == ReadInputs(b);
  }

  /** `Math.round` is the identity on whole numbers. */
  lemma RoundWhole(n: int)
    ensures Round(n as real) == n
  {
  }

  /** `Math.round` never decreases when its argument grows. */
  lemma RoundMonotone(x: real, y: real)
    requires x <= y
    ensures Round(x) <= Round(y)
  {
  }

  /** The window `x - 1/2 < n <= x + 1/2` pins `Math.round` down: exactly
      one integer lies in it, the nearest one, or on a tie the upper one. */
  lemma RoundUnique(x: real, n: int)
    requires x - 0.5 < n as real <= x + 0.5
    ensures Round(x) == n
  {
  }
}

=== FILE: validation.dfy ===
/** `validateForm` and the submit handler built on it. The form is the map
    from field names to the strings the browser collected; the connect-method
    check boxes enter only as the number of them that are checked. Marking a
    field invalid is recorded as its name in the verdict, and the alert as a
    flag. */
module Validation {

  /** The fields `validateForm` insists on, in the order it checks them. */
  const RequiredFields: seq<string> :=
    ["first-name", "last-name", "company-name", "email", "phone", "challenges"]

  /** `formValues[field]` is truthy: the field is present and not the empty
      string. A value of only spaces counts as filled. */
  predicate Filled(form: map<string, string>, field: string) {
    field in form && form[field] != ""
  }

  /** What one call of `validateForm` decides and does. */
  datatype Verdict = Verdict(
    valid: bool,            // the returned value
    marked: seq<string>,    // the fields passed to `highlightInvalidField`, in call order
    alerted: bool)          // whether the connect-method alert was shown

  /** The fields of `fields` that are not filled, in their order. */
  function MissingFields(fields: seq<string>, form: map<string, string>): (r: seq<string>)
    ensures |r| <= |fields|
  {
    if fields == [] then []
    else (if Filled(form, fields[0]) then [] else [fields[0]]) + MissingFields(fields[1..], form)
  }

  /** A field is reported missing exactly when it is in the list and not filled. */
  lemma {:induction false} MissingFieldsMembers(fields: seq<string>, form: map<string, string>)
    ensures forall f :: f in MissingFields(fields, form) <==> f in fields && !Filled(form, f)
  {
    if fields != [] {
      MissingFieldsMembers(fields[1..], form);
      assert fields == [fields[0]] + fields[1..];
    }
  }

  /** Checking two lists one after the other marks what each marks, in turn. */
  lemma {:induction false} MissingFieldsAppend(a: seq<string>, b: seq<string>, form: map<string, string>)
    ensures MissingFields(a + b, form) == MissingFields(a, form) + MissingFields(b, form)
  {
    if a == [] {
      assert a + b == b;
    } else {
      var ab := a + b;
      assert ab[0] == a[0];
      assert ab[1..] == a[1..] + b;
      MissingFieldsAppend(a[1..], b, form);
      var head := if Filled(form, a[0]) then [] else [a[0]];
      assert MissingFields(ab, form) == head + MissingFields(a[1..] + b, form);
      assert MissingFields(a, form) == head + MissingFields(a[1..], form);
    }
  }

  /** Keys that are not checked cannot change what is marked. */
  lemma {:induction false} MissingFieldsIgnoresOtherKeys(fields: seq<string>, a: map<string, string>, b: map<string, string>)
    requires forall f :: f in fields ==> (Filled(a, f) <==> Filled(b, f))
    ensures MissingFields(fields, a) == MissingFields(fields, b)
  {
    if fields != [] {
      assert fields[0] in fields;
      MissingFieldsIgnoresOtherKeys(fields[1..], a, b);
    }
  }

  /** The decision of `validateForm`, stated as a whole. */
  function Validate(form: map<string, string>, checkedMethods: nat): (v: Verdict)
    ensures v.valid <==> (forall f :: f in RequiredFields ==> Filled(form, f)) && checkedMethods > 0
    ensures forall f :: f in v.marked <==> f in RequiredFields && !Filled(form, f)
    ensures v.alerted <==> checkedMethods == 0
  {
    var missing := MissingFields(RequiredFields, form);
    MissingFieldsMembers(RequiredFields, form);
    assert missing != [] ==> missing[0] in missing;
    Verdict(missing == [] && checkedMethods > 0, missing, checkedMethods == 0)
  }

  /** `validateForm` as the source runs it: one pass over the required
      fields that marks every empty one (there is no early exit), then the
      check-box test. */
  method ValidateForm(form: map<string, string>, checkedMethods: nat) returns (v: Verdict)
    ensures v == Validate(form, checkedMethods)
    ensures v.marked == MissingFields(RequiredFields, form)
    ensures v.valid <==> (forall f :: f in RequiredFields ==> Filled(form, f)) && checkedMethods > 0
  {
    var isValid, marked := MarkMissing(RequiredFields, form);
    var alerted := false;
    if checkedMethods == 0 {
      isValid := false;
      alerted := true;
    }
    v := Verdict(isValid, marked, alerted);
  }

  /** The loop of `validateForm` over a list of fields: every field that is
      not filled is marked, in order, and clears the validity flag. */
  method MarkMissing(fields: seq<string>, form: map<string, string>) returns (isValid: bool, marked: seq<string>)
    ensures marked == MissingFields(fields, form)
    ensures isValid <==> forall f :: f in fields ==> Filled(form, f)
  {
    isValid := true;
    marked := [];
    var k := 0;
    while k < |fields|
      invariant 0 <= k <= |fields|
      invariant marked == MissingFields(fields[..k], form)
      invariant isValid <==> marked == []
    {
      var field := fields[k];
      MissingFieldsAppend(fields[..k], [field], form);
      assert fields[..k + 1] == fields[..k] + [field];
      if !Filled(form, field) {
        isValid := false;
        marked := marked + [field];
      }
      k := k + 1;
    }
    assert fields[..k] == fields;
    MissingFieldsMembers(fields, form);
    assert marked != [] ==> marked[0] in marked;
  }

  /** A filled contact form with a checked box, from which scenarios are built. */
  const CompleteForm: map<string, string> := map[
    "first-name" := "Ada", "last-name" := "Lovelace", "company-name" := "Engines",
    "email" := "ada@example.com", "phone" := "555-0100", "challenges" := "lead follow-up"]

  /** An empty e-mail with everything else in place marks only `email`,
      shows no alert, and fails. */
  lemma EmptyEmailMarksOnlyEmail()
    ensures Validate(CompleteForm["email" := ""], 1) == Verdict(false, ["email"], false)
  {
    var form := CompleteForm["email" := ""];
    var r := RequiredFields;
    assert Filled(form, r[0]) && Filled(form, r[1]) && Filled(form, r[2]);
    assert !Filled(form, r[3]);
    assert Filled(form, r[4]) && Filled(form, r[5]);
    assert MissingFields(r[6..], form) == [];
    assert r[5..][1..] == r[6..];
    assert MissingFields(r[5..], form) == [];
    assert r[4..][1..] == r[5..];
    assert MissingFields(r[4..], form) == [];
    assert r[3..][1..] == r[4..];
    assert MissingFields(r[3..], form) == ["email"];
    assert r[2..][1..] == r[3..];
    assert MissingFields(r[2..], form) == ["email"];
    assert r[1..][1..] == r[2..];
    assert MissingFields(r[1..], form) == ["email"];
  }

  /** With every field filled but no box checked, the alert path fails the
      form and marks no field. */
  lemma NoConnectMethodOnlyAlerts()
    ensures Validate(CompleteForm, 0) == Verdict(false, [], true)
  {
    var r := RequiredFields;
    assert Filled(CompleteForm, r[0]) && Filled(CompleteForm, r[1]) && Filled(CompleteForm, r[2]);
    assert Filled(CompleteForm, r[3]) && Filled(CompleteForm, r[4]) && Filled(CompleteForm, r[5]);
    NothingMissing(r, CompleteForm);
  }

  lemma NothingMissing(fields: seq<string>, form: map<string, string>)
    requires forall k :: 0 <= k < |fields| ==> Filled(form, fields[k])
    ensures MissingFields(fields, form) == []
  {
    MissingFieldsMembers(fields, form);
  }

  /** Fields that are not required, whatever they hold, never change the verdict. */
  lemma OnlyRequiredFieldsMatter(a: map<string, string>, b: map<string, string>, checkedMethods: nat)
    requires forall f :: f in RequiredFields ==> (Filled(a, f) <==> Filled(b, f))
    ensures Validate(a, checkedMethods) == Validate(b, checkedMethods)
  {
    MissingFieldsIgnoresOtherKeys(RequiredFields, a, b);
  }

  /** The contact form's state: still being edited, or replaced by the
      thank-you message. */
  datatype FormView = Editing | Acknowledged

  /** `handleFormSubmit`: an invalid form stays as it is; a valid one is
      replaced by the acknowledgement. Nothing is sent anywhere. */
  function HandleSubmit(form: map<string, string>, checkedMethods: nat): (view: FormView)
    ensures view == Acknowledged <==>
      (forall f :: f in RequiredFields ==> Filled(form, f)) && checkedMethods > 0
  {
    if Validate(form, checkedMethods).valid then Acknowledged else Editing
  }
}

=== FILE: wrappers.dfy ===
/** The optional value the model needs where the browser produces no number. */
module Wrappers {

  /** `None` stands for a value the browser could not produce (an input
      that did not parse, a chart whose percentages are not numbers). */
  datatype Option<+T> = None | Some(value: T)
}
